=== FILE: README.md ===
# GS_controller serial protocol, modelled in Dafny

GS_controller drives an RF filter/bypass controller over a serial line. It uses
a small ASCII protocol. Each command is a fixed prefix (`STB1`, `STB0`, `ST-`,
`ST+`, `STr`, `STT`, `STR`, `ST?`), an optional parameter and a line feed. The
device answers the status query with a comma-separated line tagged `STST`.

This project models:

- the protocol layer (`Command`, `SerialManager`, `SerialCommander`,
  `get_com_ports`);
- the wx main window's handlers, as transitions over the window's abstract
  state (commander, status timer, frequency label, the two toggles and the
  status text);
- the older `main.py` front end: `GetTty`, the `Update` poll with its
  debounce counters, and the two checkbox handlers.

The modules follow the program's structure:

| module | file | models |
|---|---|---|
| `Text` | text.dfy | `str.startswith`, `str.replace("\r\n", "")`, `str.split` |
| `Codec` | codec.dfy | the `Command` enum and the wire encoding |
| `SerialManager` | serial_manager.dfy | lazy open, send, read |
| `Commander` | commander.dfy | the `SerialCommander` method table and `get_status` |
| `PortDiscovery` | port_discovery.dfy | `get_com_ports`, as written and corrected |
| `MainWindow` | main_window.dfy | the `MainWindow` handlers |
| `LegacyApp` | legacy_app.dfy | `main.py` |

Serial I/O is an oracle.

- A `Device` is the port as it is at one call. `Absent` makes every serial
  operation raise `SerialException`. `Present(line)` accepts every write and
  answers `readline` with `line`.
- A probe of a port during discovery is a function `port -> Probe`.
- The `/dev` listing is a `Listing`.
- What the manager does to the port is recorded as a trace of events:
  construction, reopen, write, flush and readline. Contracts count the
  writes, reads and constructions in that trace.

Some handlers raise an exception they do not catch: an `AttributeError` on a
missing commander, or an `IndexError` on a short status line. The model treats
such a handler as stopping where it raised, and the updates it already made
are kept.

Three facts about the code shape the model:

- `_send_command` always appends `"\n"`, even when the parameter already ends
  in one.
- The module has no handler for unsolicited `ERROR` lines and no device-fault
  error.
- An offset other than -10, -1, 1 or 10 is ignored silently.

## Model

| member | source | states |
|---|---|---|
| Text.StripCrlf | serial_comm/serial_comm.py:46 | removing every CR LF pair never lengthens a line and removes characters in pairs |
| Text.StripCrlfIdentity | serial_comm/serial_comm.py:46 | a line without CR LF is returned unchanged |
| Text.StripCrlfTerminated | serial_comm/serial_comm.py:46 | `X + "\r\n"` with no CR LF in X yields exactly X |
| Text.Split | wxUI/main_window.py:123 | splitting yields at least one field and no field contains the separator |
| Text.JoinSplit | wxUI/main_window.py:123 | rejoining the fields with the separator gives back the original line |
| Text.SplitJoin | main.py:148 | separator-free fields joined and split again come back unchanged |
| Text.SplitPlain | main.py:148 | a line without the separator is a single field |
| Text.SplitAppend | main.py:148 | the text up to the first separator is the first field and the rest splits on its own |
| Codec.PrefixFree | serial_comm/serial_comm.py:10-18 | any two distinct commands have distinct prefixes, and neither prefix starts the other |
| Codec.AllCommandsListed | serial_comm/serial_comm.py:10-18 | the enumeration of the eight commands is complete |
| Codec.Match | serial_comm/serial_comm.py:10-18 | the command found starts the line; when none is found, no listed prefix starts it |
| Codec.UniqueMatch | serial_comm/serial_comm.py:10-18 | at most one command's prefix can start a given line |
| Codec.Encode | serial_comm/serial_comm.py:40 | the line is the prefix, then the parameter verbatim, then one line feed |
| Codec.LoggedEncode | serial_comm/serial_comm.py:40-41 | the logged text, which is the line without its last character, is prefix plus parameter |
| Codec.DecodeEncode | serial_comm/serial_comm.py:40 | every encoded line decodes back to its command and parameter |
| Codec.EncodeDecode | serial_comm/serial_comm.py:40 | every line that decodes is the encoding of what it decodes to |
| Codec.EncodeInjective | serial_comm/serial_comm.py:40 | two different (command, parameter) pairs never give the same line |
| SerialManager.OpenSerial | serial_comm/serial_comm.py:31-36 | succeeds iff the connection is already open or the device is there, and leaves it open. At most one connection is built, only when there was none. An open connection is neither rebuilt nor reopened. A failure changes nothing |
| SerialManager.SendCommand | serial_comm/serial_comm.py:38-43 | with the device there it writes exactly the encoded line and reads nothing; otherwise it raises `SerialException` |
| SerialManager.ReadFromSerial | serial_comm/serial_comm.py:45-48 | one readline whose result has its CR LF pairs removed; it raises when the port is closed or gone |
| SerialManager.TraceAppend | serial_comm/serial_comm.py:38-48 | writes, reads and constructions of a trace add up over concatenation |
| Commander.NewCommander | serial_comm/serial_comm.py:72-73 | a commander starts with a manager bound to its port and baud rate, with no connection. The window builds it with the default 9600 baud |
| Commander.WireOf | serial_comm/serial_comm.py:75-100 | the exact line of each method. The step opcodes are inverted: `filter_step_up_N` sends `ST-N`, `filter_step_down_N` sends `ST+N`, `reset_filter` sends `STr` |
| Commander.StatusQuery | serial_comm/serial_comm.py:103 | the status query line is `ST?\n` |
| Commander.WiresDistinct | serial_comm/serial_comm.py:75-103 | no two methods share a line, and none shares the status query's line |
| Commander.Invoke | serial_comm/serial_comm.py:75-100 | each fire-and-forget method writes exactly its one line and reads nothing; it raises `SerialException` iff the device is gone |
| Commander.GetStatusOf | serial_comm/serial_comm.py:102-108 | writes `ST?\n` and reads one line. It returns that line iff it starts with `STST`, raises `BadSerialResponseException` on any other line and `SerialException` when the device is gone |
| Commander.Serve | serial_comm/serial_comm.py:75-108 | any request builds a connection only for a manager that had none, and keeps the manager bound |
| Commander.ConnectionKept | serial_comm/serial_comm.py:33-36 | once a manager holds a connection, no later request builds another |
| Commander.ConstructedAtMostOnce | serial_comm/serial_comm.py:33-34 | over any session of a fresh commander, a connection is built at most once, and exactly when the manager ends up holding one, bound to its port, baud rate and 3 s timeout. The manager keeps the port and baud rate it started with |
| Commander.BoundKept | serial_comm/serial_comm.py:34 | a manager's connection stays bound to its own port and baud rate over any session, and the manager keeps that port and baud rate |
| PortDiscovery.StatusTagBytesAscii | serial_comm/serial_comm.py:63 | the byte tag `b'STST'` the probe compares with is the ASCII form of the tag `get_status` checks |
| PortDiscovery.Read4 | serial_comm/serial_comm.py:62 | at most four bytes are read, taken from the front of the reply. A reply of four bytes or more gives exactly four, and a shorter one comes back whole |
| PortDiscovery.RespondsIffTagged | serial_comm/serial_comm.py:62-63 | a port is confirmed iff its reply starts with `STST` |
| PortDiscovery.LastResponder | serial_comm/serial_comm.py:59-66 | reference: the last enumerated port whose probe confirms it, or none when no port confirms |
| PortDiscovery.IndexOf | serial_comm/serial_comm.py:66 | `list.index`: the first position holding the value |
| PortDiscovery.ReorderAsWritten | serial_comm/serial_comm.py:59-67 | the loop as written raises only `SerialException` |
| PortDiscovery.ReorderAsWrittenFrom | serial_comm/serial_comm.py:59-68 | loop invariant as written: slot 0 holds the last port confirmed so far, and every later slot is untouched |
| PortDiscovery.GetComPortsAsWrittenSpec | serial_comm/serial_comm.py:58-68 | as written: raises iff some probe raises. Otherwise the length and every entry past the first are kept, and slot 0 is overwritten with the last confirmed port. With no confirmed port the list is unchanged |
| PortDiscovery.AsWrittenDropsFirstPort | serial_comm/serial_comm.py:65-67 | as written, a confirmed port past slot 0 appears twice and the original first port is lost |
| PortDiscovery.AsWrittenCounterexample | serial_comm/serial_comm.py:65-67 | `["/dev/ttyS0", "/dev/ttyUSB0"]` with only `/dev/ttyUSB0` answering gives `["/dev/ttyUSB0", "/dev/ttyUSB0"]` |
| PortDiscovery.ReorderSwapping | serial_comm/serial_comm.py:59-67 | the corrected loop raises only `SerialException` |
| PortDiscovery.SwapPreservesMultiset | serial_comm/serial_comm.py:65-67 | swapping slot 0 with slot i keeps the same multiset of ports |
| PortDiscovery.ReorderSwappingFrom | serial_comm/serial_comm.py:59-68 | loop invariant of the swap: the list is a permutation with the last confirmed port so far in front |
| PortDiscovery.GetComPortsSpec | serial_comm/serial_comm.py:51-68 | corrected: raises iff some probe raises. Otherwise it returns a permutation of the enumeration with the last confirmed port first. Every silent port past slot 0 stays in place, and with no confirmed port the list is unchanged |
| MainWindow.RunCall | wxUI/main_window.py:79-86 | a commander call writes its one line when both the commander and the device are there. A `SerialException` is caught and nothing shown changes. The window keeps a commander for the same port and baud rate |
| MainWindow.OnFilterOffset | wxUI/main_window.py:105-118 | -10, -1, 1 and 10 send `ST+10`, `ST+1`, `ST-1` and `ST-10`. Any other delta sends nothing and changes nothing. The window keeps a commander for the same port and baud rate |
| MainWindow.OnBypass | wxUI/main_window.py:78-86 | `True` sends `STB1` and anything else sends `STB0`; the display and the timer are left alone. The window keeps a commander for the same port and baud rate |
| MainWindow.OnForceTx | wxUI/main_window.py:88-96 | `True` sends `STT` and anything else sends `STR`; the display and the timer are left alone. The window keeps a commander for the same port and baud rate |
| MainWindow.OnResetFilter | wxUI/main_window.py:98-103 | sends `STr` whatever the message is; the display and the timer are left alone. The window keeps a commander for the same port and baud rate |
| MainWindow.ShowStatus | wxUI/main_window.py:123-135 | the label is field 1 plus ` MHz`; each toggle is off iff its field (3 or 5) is `"0"`. A short status stops at the first missing field: with 2 or 3 fields only the label changes, and with 4 or 5 the label and the bypass toggle change |
| MainWindow.OnTimerTick | wxUI/main_window.py:120-142 | polls with `ST?`. A `SerialException` stops the timer. A bad response leaves the timer and the display alone. A valid status updates the label and both toggles. The timer is never started here. The status bar is never touched, and the window keeps a commander for the same port and baud rate |
| MainWindow.TickShowsFields | wxUI/main_window.py:120-135 | any tagged six-field reply ending in CR LF, such as `STST,433.500,0,1,0,1`, shows field 1 with ` MHz`, sets each toggle on iff its field is not `"0"`, and keeps the timer as it was |
| MainWindow.OnPortSettings | wxUI/main_window.py:52-76 | an empty port list or a cancelled dialog changes nothing. A chosen port gets a new commander even when its first poll fails. The timer runs afterwards iff it already ran or that poll succeeded, and only then does the status bar name the port; otherwise it is left as it was. Discovery uses the corrected `GetComPorts`; the version as written has the same length and raises in the same cases, so the handler behaves the same with either |
| MainWindow.AlwaysConsistent | wxUI/main_window.py:52-142 | over any sequence of handler calls, the timer never runs without a commander, and the commander's connection stays bound to the commander's own port |
| MainWindow.CommanderKept | wxUI/main_window.py:78-142 | between port selections the commander is never replaced: after any run of the other handlers, a window that had a commander has one for the same port and baud rate |
| MainWindow.InitialConsistent | wxUI/main_window.py:22-24 | the window as built, with no commander and a stopped timer, satisfies the window invariant |
| LegacyApp.TtyNames | main.py:12-14 | reference: the `tty` entries of the listing, in listing order |
| LegacyApp.TtyNamesPrefix | main.py:12-14 | the `tty` entries of a prefix of the listing are a prefix of all its `tty` entries |
| LegacyApp.ScanEntry | main.py:13-21 | one entry: `tty` names are appended. A `ttyUSB` name is probed only while nothing is selected, and it is selected iff the whole reply is `STST` |
| LegacyApp.GetTty | main.py:7-24 | `ports` is the list of `tty` entries in order, cut short only by a probe that raises, and then it ends at the `ttyUSB` entry whose probe raised; every earlier `ttyUSB` probe replied, so the scan stops at the first probe that raises. `selid` is -1 or the index of the first `ttyUSB` entry that confirms. No entry after the selected one is probed, and a failed listing gives `[[], -1]` |
| LegacyApp.AbortedScan | main.py:16-23 | a probe that raises ends the scan at the failing entry |
| LegacyApp.Fields | main.py:147-148 | a reply always has at least one field |
| LegacyApp.Update | main.py:139-171 | refreshes the port label. With an open serial object it writes `ST?`. A reply whose field 0 is not exactly `STST` drops the port and the serial object and keeps the counters. Otherwise each counter above 0 counts down and holds its checkbox, and a spent counter lets its checkbox follow field 3 or 5. A tagged reply too short for the field it needs stops there: without field 3 nothing but the label changes, and without field 5 the force checkbox is kept. Counters never go negative |
| LegacyApp.OnChBoxBypass | main.py:111-123 | without a serial object it writes nothing, forces the checkbox off and keeps the counter. Otherwise it writes `STB1` or `STB0` and restarts the counter at 4 |
| LegacyApp.OnChBoxForce | main.py:125-137 | as the bypass handler, with `STT` or `STR` and the force-TX counter |
| LegacyApp.DebounceSchedule | main.py:158-171 | over k good polls each counter reaches max(0, c - k). Its checkbox is held while k <= c and then follows the latest poll |
| LegacyApp.FifthPollResyncsBypass | main.py:111-164 | after a bypass click, the next four good polls keep the checkbox as clicked and the fifth resyncs it with the device |
| LegacyApp.FifthPollResyncsForce | main.py:125-171 | the same for a force-TX click |
| LegacyApp.LegacyLinesAreCommands | main.py:115-146 | the lines `main.py` writes are the protocol's own encodings. Its `GetTty` probe `ST?` omits the line feed |

## Left out

- wx widgets, layout, menus, message boxes and the pubsub wiring are not modelled. Only the toggle, label, status-text and timer state they produce is kept.
- Logging and `print` are not modelled.
- pyserial is not modelled: opening, timeouts (including the probe's 9600 baud and 2 s timeout at serial_comm/serial_comm.py:60), `flush`, UTF-8 decoding and the bytes on the wire. The `Device` and `Probe` oracles stand in for them, and the model works on characters.
- `list_ports.comports()` and `os.listdir("/dev")` are parameters, not calls.
- `int(message)` in `OnFilterOffsetMessageReceived` is not modelled. The handler takes the integer, so a label that does not parse (a `ValueError`) is not modelled.
- The bypass and force-TX messages are modelled as booleans, so `message is True` becomes the boolean itself.
- serial_comm/__init__.py is not part of this model. It only re-exports, and it imports a name the module does not define.
- `MyApp.tryInitSerial` (main.py:173-191), `OnPortMenu` and `onExitPortMenu` are dialog and I/O plumbing and are not modelled. `Update` starts from any `App` state instead.
- `MyApp.OnButtonClick` only prints and is not modelled.
- MainWindow.OnPortSettings: the name the dialog returns is not tied to the listed ports. A probe that raises during discovery escapes the handler, which then changes nothing.
- MainWindow.OnPortSettings: `wx.SingleChoiceDialog` is not modelled, so the dialog's text is not stated.
- MainWindow.OnTimerTick: its contract states the display only for statuses with at least six fields. Shorter ones are stated by `MainWindow.ShowStatus`, which the tick applies to the reply's fields.
- LegacyApp.GetTty: `readline` on the probe is one reply from the oracle. A reply ending in `\r\n` does not match `STST`, exactly as in the code. The probe port is opened without a timeout (main.py:16), so pyserial's `readline` (main.py:18) returns only data ending in a line feed, or blocks. The bare `STST` reply that `Confirms` accepts therefore never arrives, and in practice `selid` stays -1. The oracle does not model the blocking and lets any reply through.

## Findings

| source | as written | input that shows it | evidently intended | confidence | as-written member | corrected member |
|---|---|---|---|---|---|---|
| serial_comm/serial_comm.py:65-67 | `po = ports[0]` is saved and never used. Line 67 is a bare expression, so the confirmed port only overwrites slot 0 | ports `["/dev/ttyS0", "/dev/ttyUSB0"]` where only `/dev/ttyUSB0` answers `STST` gives `["/dev/ttyUSB0", "/dev/ttyUSB0"]`, and `/dev/ttyS0` is lost | swap the confirmed port with the first entry, so the result is a permutation of the enumerated ports with the device first | not executed; high — `po` exists only for the swap | PortDiscovery.AsWrittenCounterexample | PortDiscovery.GetComPortsSpec |

=== FILE: codec.dfy ===
/** The controller's wire commands (`Command` in serial_comm/serial_comm.py)
    and their line encoding: prefix, then parameter, then a line feed. */
module Codec {
  import opened Text

  /** The closed set of wire commands. The two step commands are named as in
      the source: `FilterStepUp` carries the `-` opcode and `FilterStepDown`
      the `+` opcode, a hardware convention the model keeps. */
  datatype Command =
    | BypassOn
    | BypassOff
    | FilterStepUp
    | FilterStepDown
    | FilterStepReset
    | ModeTxOn
    | ModeTxOff
    | GetStatus

  const AllCommands: seq<Command> :=
    [BypassOn, BypassOff, FilterStepUp, FilterStepDown, FilterStepReset, ModeTxOn, ModeTxOff, GetStatus]

  /** The tag every valid status reply starts with. */
  const StatusTag := "STST"

  /** The ASCII prefix each command puts on the wire. */
  function Prefix(c: Command): string {
    match c
    case BypassOn => "STB1"
    case BypassOff => "STB0"
    case FilterStepUp => "ST-"
    case FilterStepDown => "ST+"
    case FilterStepReset => "STr"
    case ModeTxOn => "STT"
    case ModeTxOff => "STR"
    case GetStatus => "ST?"
  }

  lemma AllCommandsListed(c: Command)
    ensures c in AllCommands
  {
  }

  /** The eight prefixes are pairwise distinct, and none of them is a prefix
      of another one, so a line names its command unambiguously. */
  lemma PrefixFree(c1: Command, c2: Command)
    requires c1 != c2
    ensures Prefix(c1) != Prefix(c2)
    ensures !StartsWith(Prefix(c1), Prefix(c2))
  {
    // Every prefix is "ST" and one or two more characters; only the two
    // bypass prefixes share their third character, and they differ in the
    // fourth.
    var p1, p2 := Prefix(c1), Prefix(c2);
    assert 3 <= |p1| && 3 <= |p2|;
    assert p1[2] != p2[2] || (|p1| == |p2| == 4 && p1[3] != p2[3]);
  }

  /** The line sent for `command` with `parameter`. The parameter is copied
      verbatim, so a parameter that already ends in a line feed yields two. */
  function Encode(c: Command, parameter: string): (line: string)
    ensures |line| == |Prefix(c)| + |parameter| + 1
    ensures StartsWith(line, Prefix(c))
    ensures line[|Prefix(c)|..|line| - 1] == parameter
    ensures line[|line| - 1] == '\n'
  {
    Prefix(c) + parameter + "\n"
  }

  /** The text the source logs for a sent line: the line without its last
      character. */
  function Logged(line: string): string
    requires |line| > 0
  {
    line[..|line| - 1]
  }

  /** Dropping the terminator of an encoded line leaves prefix and parameter. */
  lemma LoggedEncode(c: Command, parameter: string)
    ensures Logged(Encode(c, parameter)) == Prefix(c) + parameter
  {
    var line := Encode(c, parameter);
    assert Logged(line) == line[..|Prefix(c)|] + line[|Prefix(c)|..|line| - 1];
  }

  /** The first command of `cs` whose prefix starts `body`. */
  function Match(body: string, cs: seq<Command>): (r: Option<Command>)
    ensures r.Some? ==> r.value in cs && StartsWith(body, Prefix(r.value))
    ensures r.None? ==> forall c :: c in cs ==> !StartsWith(body, Prefix(c))
    decreases |cs|
  {
    if |cs| == 0 then None
    else if StartsWith(body, Prefix(cs[0])) then Some(cs[0])
    else Match(body, cs[1..])
  }

  /** Reference inverse of `Encode`: recovers command and parameter from a
      line, or nothing when the line is not terminated or has no known
      prefix. */
  function Decode(line: string): Option<(Command, string)> {
    if |line| == 0 || line[|line| - 1] != '\n' then None
    else
      var body := line[..|line| - 1];
      match Match(body, AllCommands)
      case None => None
      case Some(c) => Some((c, body[|Prefix(c)|..]))
  }

  /** Only one command's prefix can start a given line. */
  lemma UniqueMatch(body: string, c1: Command, c2: Command)
    requires StartsWith(body, Prefix(c1)) && StartsWith(body, Prefix(c2))
    ensures c1 == c2
  {
    if c1 != c2 {
      PrefixFree(c1, c2);
      PrefixFree(c2, c1);
      if |Prefix(c2)| <= |Prefix(c1)| {
        StartsWithBoth(body, Prefix(c2), Prefix(c1));
      } else {
        StartsWithBoth(body, Prefix(c1), Prefix(c2));
      }
    }
  }

  /** Every encoded line decodes to the command and parameter it came from. */
  lemma DecodeEncode(c: Command, parameter: string)
    ensures Decode(Encode(c, parameter)) == Some((c, parameter))
  {
    var line := Encode(c, parameter);
    var body := line[..|line| - 1];
    assert body == Prefix(c) + parameter;
    AllCommandsListed(c);
    var m := Match(body, AllCommands);
    assert StartsWith(body, Prefix(c));
    UniqueMatch(body, m.value, c);
  }

  /** A terminated line is its prefix, the rest of its body and the newline. */
  lemma Reassemble(line: string, prefix: string)
    requires |line| > 0 && line[|line| - 1] == '\n'
    requires StartsWith(line[..|line| - 1], prefix)
    ensures prefix + line[..|line| - 1][|prefix|..] + "\n" == line
  {
    var body := line[..|line| - 1];
    assert body == prefix + body[|prefix|..];
    assert line == body + "\n";
  }

  /** Every line that decodes is the encoding of what it decodes to. */
  lemma EncodeDecode(line: string)
    requires Decode(line).Some?
    ensures Encode(Decode(line).value.0, Decode(line).value.1) == line
  {
    var body := line[..|line| - 1];
    var c := Match(body, AllCommands).value;
    var prefix := Prefix(c);
    assert Decode(line).value == (c, body[|prefix|..]);
    Reassemble(line, prefix);
  }

  /** Distinct (command, parameter) pairs never share a line. */
  lemma EncodeInjective(c1: Command, p1: string, c2: Command, p2: string)
    requires Encode(c1, p1) == Encode(c2, p2)
    ensures c1 == c2 && p1 == p2
  {
    DecodeEncode(c1, p1);
    DecodeEncode(c2, p2);
  }
}

=== FILE: commander.dfy ===
/** `SerialCommander` of serial_comm/serial_comm.py: the public method table
    over one `SerialManager`. Each fire-and-forget method sends one command;
    `get_status` sends the status query and validates the reply. */
module Commander {
  import opened Text
  import opened Codec
  import opened SerialManager

  /** The commander's fire-and-forget methods. */
  datatype Call =
    | SetBypassOn
    | SetBypassOff
    | FilterStepUp1
    | FilterStepUp10
    | FilterStepDown1
    | FilterStepDown10
    | ResetFilter
    | SetModeTxOn
    | SetModeTxOff

  /** `SerialCommander(port, baudrate)`: a commander owns a fresh manager
      bound to the port and baud rate it was given; the source's default
      baud rate is `DefaultBaudrate`. */
  function NewCommander(port: string, baudrate: int): (m: Manager)
    ensures m.port == port && m.baudrate == baudrate && m.connection.None?
    ensures Bound(m)
  {
    NewManager(port, baudrate)
  }

  /** The command and parameter each method hands to `_send_command`. */
  function MethodTable(call: Call): (Command, string) {
    match call
    case SetBypassOn => (BypassOn, "")
    case SetBypassOff => (BypassOff, "")
    case FilterStepUp1 => (FilterStepUp, "1")
    case FilterStepUp10 => (FilterStepUp, "10")
    case FilterStepDown1 => (FilterStepDown, "1")
    case FilterStepDown10 => (FilterStepDown, "10")
    case ResetFilter => (FilterStepReset, "")
    case SetModeTxOn => (ModeTxOn, "")
    case SetModeTxOff => (ModeTxOff, "")
  }

  /** The line each method puts on the wire. The step opcodes are inverted:
      stepping up sends `ST-`, stepping down sends `ST+`. */
  function WireOf(call: Call): (line: string)
    ensures call == SetBypassOn ==> line == "STB1\n"
    ensures call == SetBypassOff ==> line == "STB0\n"
    ensures call == FilterStepUp1 ==> line == "ST-1\n"
    ensures call == FilterStepUp10 ==> line == "ST-10\n"
    ensures call == FilterStepDown1 ==> line == "ST+1\n"
    ensures call == FilterStepDown10 ==> line == "ST+10\n"
    ensures call == ResetFilter ==> line == "STr\n"
    ensures call == SetModeTxOn ==> line == "STT\n"
    ensures call == SetModeTxOff ==> line == "STR\n"
  {
    Encode(MethodTable(call).0, MethodTable(call).1)
  }

  /** The status query line. */
  function StatusQuery(): (line: string)
    ensures line == "ST?\n"
  {
    Encode(GetStatus, "")
  }

  /** No two methods, and no method and the status query, share a line. */
  lemma WiresDistinct(a: Call, b: Call)
    ensures WireOf(a) == WireOf(b) ==> a == b
    ensures WireOf(a) != StatusQuery()
  {
    if WireOf(a) == WireOf(b) {
      EncodeInjective(MethodTable(a).0, MethodTable(a).1, MethodTable(b).0, MethodTable(b).1);
    }
    if WireOf(a) == StatusQuery() {
      EncodeInjective(MethodTable(a).0, MethodTable(a).1, GetStatus, "");
    }
  }

  /** Invoking a fire-and-forget method: exactly one line is written when the
      device is there, and nothing is ever read. */
  function Invoke(m: Manager, call: Call, dev: Device): (s: Step<()>)
    ensures Writes(s.events) == (if dev.Present? then [WireOf(call)] else [])
    ensures Reads(s.events) == 0
    ensures s.result.Ok? <==> dev.Present?
    ensures s.result.Err? ==> s.result.failure == SerialException
    ensures s.manager.port == m.port && s.manager.baudrate == m.baudrate
    ensures Bound(m) ==> Bound(s.manager)
    ensures Constructions(s.events) == (if m.connection.None? && dev.Present? then 1 else 0)
  {
    SendCommand(m, MethodTable(call).0, MethodTable(call).1, dev)
  }

  /** A status reply is accepted iff it starts with the tag. */
  predicate ValidStatus(line: string) {
    StartsWith(line, StatusTag)
  }

  /** `get_status`: writes the status query, reads one line, and returns it
      unchanged when it carries the status tag; any other line raises
      `BadSerialResponseException`. */
  function GetStatusOf(m: Manager, dev: Device): (s: Step<string>)
    ensures Writes(s.events) == (if dev.Present? then [StatusQuery()] else [])
    ensures Reads(s.events) == (if dev.Present? then 1 else 0)
    ensures s.result.Ok? <==> dev.Present? && ValidStatus(StripCrlf(dev.line))
    ensures s.result.Ok? ==> s.result.value == StripCrlf(dev.line)
    ensures dev.Absent? ==> s.result == Err(SerialException)
    ensures dev.Present? && !ValidStatus(StripCrlf(dev.line)) ==> s.result == Err(BadSerialResponse)
    ensures dev.Present? ==> IsOpen(s.manager)
    ensures s.manager.port == m.port && s.manager.baudrate == m.baudrate
    ensures Bound(m) ==> Bound(s.manager)
    ensures Constructions(s.events) == (if m.connection.None? && dev.Present? then 1 else 0)
  {
    var sent := SendCommand(m, GetStatus, "", dev);
    if sent.result.Err? then Step(sent.manager, sent.events, Err(SerialException))
    else
      var read := ReadFromSerial(sent.manager, dev);
      TraceAppend(sent.events, read.events);
      var events := sent.events + read.events;
      match read.result
      case Err(f) => Step(read.manager, events, Err(f))
      case Ok(line) =>
        if ValidStatus(line) then Step(read.manager, events, Ok(line))
        else Step(read.manager, events, Err(BadSerialResponse))
  }

  /** One request a caller makes of a commander. */
  datatype Request = Fire(call: Call) | Status

  /** Serving one request with the device as it is at that moment. */
  function Serve(m: Manager, req: Request, dev: Device): (s: Step<string>)
    ensures Constructions(s.events) == (if m.connection.None? && dev.Present? then 1 else 0)
    ensures s.manager.port == m.port && s.manager.baudrate == m.baudrate
    ensures Bound(m) ==> Bound(s.manager)
  {
    match req
    case Fire(call) =>
      var s := Invoke(m, call, dev);
      Step(s.manager, s.events, if s.result.Ok? then Ok("") else Err(s.result.failure))
    case Status => GetStatusOf(m, dev)
  }

  /** The manager and the whole trace after serving a sequence of requests. */
  function Session(m: Manager, reqs: seq<(Request, Device)>): (Manager, seq<Event>)
    decreases |reqs|
  {
    if |reqs| == 0 then (m, [])
    else
      var s := Serve(m, reqs[0].0, reqs[0].1);
      var rest := Session(s.manager, reqs[1..]);
      (rest.0, s.events + rest.1)
  }

  /** Once a manager holds a connection it keeps one, and no later request
      builds another. */
  lemma {:induction false} ConnectionKept(m: Manager, reqs: seq<(Request, Device)>)
    requires m.connection.Some?
    ensures Session(m, reqs).0.connection.Some?
    ensures Constructions(Session(m, reqs).1) == 0
    decreases |reqs|
  {
    if |reqs| > 0 {
      var s := Serve(m, reqs[0].0, reqs[0].1);
      assert s.manager.connection.Some? by {
        match reqs[0].0
        case Fire(call) =>
        case Status =>
      }
      ConnectionKept(s.manager, reqs[1..]);
      TraceAppend(s.events, Session(s.manager, reqs[1..]).1);
    }
  }

  /** Over any session of a fresh commander, the connection is built at most
      once, and it has been built exactly when the manager holds one, bound
      to the commander's port, baud rate and read timeout. */
  lemma {:induction false} ConstructedAtMostOnce(m: Manager, reqs: seq<(Request, Device)>)
    requires m.connection.None?
    ensures Constructions(Session(m, reqs).1) <= 1
    ensures Constructions(Session(m, reqs).1) == 1 <==> Session(m, reqs).0.connection.Some?
    ensures Bound(Session(m, reqs).0)
    ensures Session(m, reqs).0.port == m.port
    ensures Session(m, reqs).0.baudrate == m.baudrate
    decreases |reqs|
  {
    if |reqs| > 0 {
      var s := Serve(m, reqs[0].0, reqs[0].1);
      var rest := Session(s.manager, reqs[1..]);
      TraceAppend(s.events, rest.1);
      if s.manager.connection.None? {
        ConstructedAtMostOnce(s.manager, reqs[1..]);
      } else {
        ConnectionKept(s.manager, reqs[1..]);
        BoundKept(s.manager, reqs[1..]);
      }
    }
  }

  lemma {:induction false} BoundKept(m: Manager, reqs: seq<(Request, Device)>)
    requires Bound(m)
    ensures Bound(Session(m, reqs).0)
    ensures Session(m, reqs).0.port == m.port
    ensures Session(m, reqs).0.baudrate == m.baudrate
    decreases |reqs|
  {
    if |reqs| > 0 {
      BoundKept(Serve(m, reqs[0].0, reqs[0].1).manager, reqs[1..]);
    }
  }
}

=== FILE: legacy_app.dfy ===
/** The older single-file front end, main.py: device auto-detection over the
    `/dev` listing (`GetTty`), the once-a-second status poll (`MyApp.Update`)
    and the two checkbox handlers, with the debounce counters that keep a
    freshly clicked checkbox from being overwritten by the next polls.

    The `/dev` listing and each probe are oracles; the app's serial object is
    a `Connection`, and each poll or write is handed the `Device` as it is at
    that moment. Checkbox values, the label and the counters are state;
    message boxes and prints are not modelled. */
module LegacyApp {
  import opened Text
  import opened Codec
  import opened SerialManager
  import opened PortDiscovery

  // ---------------------------------------------------------------------
  // GetTty

  /** The `os.listdir("/dev")` outcome. */
  datatype Listing = Listed(names: seq<string>) | ListingFailed

  /** `GetTty`'s `[ports, selid]`, and the device paths it tried to open to probe. */
  datatype TtyScan = TtyScan(ports: seq<string>, selid: int, probed: seq<string>)

  predicate IsTty(name: string) {
    StartsWith(name, "tty")
  }

  predicate IsUsbTty(name: string) {
    StartsWith(name, "ttyUSB")
  }

  function DevPath(name: string): string {
    "/dev/" + name
  }

  /** The probe sends `ST?` without a line terminator and compares the whole
      `readline()` result, terminator included, with `b"STST"`. */
  const ProbeQuery := "ST?"

  predicate Confirms(reply: Probe) {
    reply == Replied(StatusTagBytes)
  }

  /** Reference: the `tty` entries of a listing, in listing order. */
  function TtyNames(names: seq<string>): (r: seq<string>)
    ensures |r| <= |names|
    ensures forall j :: 0 <= j < |r| ==> IsTty(r[j]) && r[j] in names
    decreases |names|
  {
    if |names| == 0 then []
    else TtyNames(names[..|names| - 1]) + (if IsTty(names[|names| - 1]) then [names[|names| - 1]] else [])
  }

  /** Reference: the device paths of the `ttyUSB` entries, in order. */
  function UsbPaths(ports: seq<string>): seq<string>
    decreases |ports|
  {
    if |ports| == 0 then []
    else UsbPaths(ports[..|ports| - 1]) + (if IsUsbTty(ports[|ports| - 1]) then [DevPath(ports[|ports| - 1])] else [])
  }

  lemma {:induction false} TtyNamesPrefix(names: seq<string>, i: nat)
    requires i <= |names|
    ensures StartsWith(TtyNames(names), TtyNames(names[..i]))
    decreases |names|
  {
    if i == |names| {
      assert names[..i] == names;
    } else {
      var init := names[..|names| - 1];
      assert init[..i] == names[..i];
      TtyNamesPrefix(init, i);
      var a, b := TtyNames(init), TtyNames(names[..i]);
      assert TtyNames(names)[..|b|] == a[..|b|];
    }
  }

  /** How far the probes went: through the selected entry, or all entries. */
  function Probed(ports: seq<string>, selid: int): seq<string>
    requires -1 <= selid < |ports|
  {
    if selid == -1 then UsbPaths(ports) else UsbPaths(ports[..selid + 1])
  }

  /** What a scan keeps true: the selected entry, if any, is a confirmed
      `ttyUSB` entry, no `ttyUSB` entry before it (or at all, without a
      selection) is confirmed, and exactly the `ttyUSB` entries up to the
      selection were probed. */
  predicate Scanned(scan: TtyScan, probe: string -> Probe) {
    && -1 <= scan.selid < |scan.ports|
    && (scan.selid != -1 ==>
          IsUsbTty(scan.ports[scan.selid]) && Confirms(probe(DevPath(scan.ports[scan.selid]))))
    && (forall j :: 0 <= j < |scan.ports| && (scan.selid == -1 || j < scan.selid) && IsUsbTty(scan.ports[j]) ==>
          !Confirms(probe(DevPath(scan.ports[j]))))
    && scan.probed == Probed(scan.ports, scan.selid)
  }

  /** Every `ttyUSB` entry among the first `n` ports that was probed before
      a selection got a reply: no probe among them raised. */
  predicate AllReplied(scan: TtyScan, probe: string -> Probe, n: int) {
    forall j :: 0 <= j < n && j < |scan.ports| && IsUsbTty(scan.ports[j]) && (scan.selid == -1 || j < scan.selid) ==>
      probe(DevPath(scan.ports[j])).Replied?
  }

  /** One iteration of `GetTty`'s loop. `sel` is true exactly while `selid`
      is -1. The flag reports a probe that raised, which ends the scan. */
  function ScanEntry(scan: TtyScan, file: string, probe: string -> Probe): (r: (TtyScan, bool))
    requires Scanned(scan, probe)
    ensures Scanned(r.0, probe)
    ensures r.0.ports == scan.ports + (if IsTty(file) then [file] else [])
    ensures r.1 <==> IsUsbTty(file) && scan.selid == -1 && probe(DevPath(file)).ProbeFailed?
    ensures r.1 ==> r.0.selid == -1
    ensures AllReplied(scan, probe, |scan.ports|) ==>
      AllReplied(r.0, probe, if r.1 then |r.0.ports| - 1 else |r.0.ports|)
  {
    if !IsTty(file) then (scan, false)
    else
      var ports := scan.ports + [file];
      ProbedAppend(scan.ports, file, scan.selid);
      if IsUsbTty(file) && scan.selid == -1 then
        var probed := scan.probed + [DevPath(file)];
        match probe(DevPath(file))
        case ProbeFailed => (TtyScan(ports, -1, probed), true)
        case Replied(line) =>
          if line == StatusTagBytes then
            assert ports[..|ports|] == ports;
            (TtyScan(ports, |ports| - 1, probed), false)
          else (TtyScan(ports, -1, probed), false)
      else (TtyScan(ports, scan.selid, scan.probed), false)
  }

  /** `GetTty`: the `tty` entries of `/dev` in listing order, and the index of
      the first `ttyUSB` entry whose probe answers `b"STST"`, or -1. Once an
      entry is selected no later entry is probed. A probe that raises ends the
      scan with what was gathered so far, the failing entry included. */
  method GetTty(listing: Listing, probe: string -> Probe) returns (scan: TtyScan)
    ensures listing.ListingFailed? ==> scan == TtyScan([], -1, [])
    ensures listing.Listed? ==> StartsWith(TtyNames(listing.names), scan.ports)
    ensures listing.Listed? && (forall n :: n in listing.names && IsUsbTty(n) ==> probe(DevPath(n)).Replied?) ==>
      scan.ports == TtyNames(listing.names)
    ensures listing.Listed? && |scan.ports| < |TtyNames(listing.names)| ==>
      scan.selid == -1 && |scan.ports| > 0 && IsUsbTty(scan.ports[|scan.ports| - 1])
      && probe(DevPath(scan.ports[|scan.ports| - 1])).ProbeFailed?
    ensures -1 <= scan.selid < |scan.ports|
    ensures scan.selid != -1 ==>
      IsUsbTty(scan.ports[scan.selid]) && Confirms(probe(DevPath(scan.ports[scan.selid])))
    ensures forall j :: 0 <= j < |scan.ports| && (scan.selid == -1 || j < scan.selid) && IsUsbTty(scan.ports[j]) ==>
      !Confirms(probe(DevPath(scan.ports[j])))
    ensures scan.probed == Probed(scan.ports, scan.selid)
    ensures AllReplied(scan, probe, |scan.ports| - 1)
  {
    if listing.ListingFailed? {
      return TtyScan([], -1, []);
    }
    var names := listing.names;
    scan := TtyScan([], -1, []);
    var i := 0;
    while i < |names|
      invariant 0 <= i <= |names|
      invariant scan.ports == TtyNames(names[..i])
      invariant Scanned(scan, probe)
      invariant AllReplied(scan, probe, |scan.ports|)
    {
      var file := names[i];
      var step := ScanEntry(scan, file, probe);
      TtyNamesStep(names, i);
      scan := step.0;
      if step.1 {
        AbortedScan(names, i, scan.ports, probe);
        return;
      }
      i := i + 1;
    }
    assert names[..i] == names;
  }

  /** A scan ended by a failing probe of `names[i]` stops at that entry. */
  lemma AbortedScan(names: seq<string>, i: nat, ports: seq<string>, probe: string -> Probe)
    requires i < |names| && ports == TtyNames(names[..i + 1])
    requires IsUsbTty(names[i]) && probe(DevPath(names[i])).ProbeFailed?
    ensures StartsWith(TtyNames(names), ports)
    ensures |ports| > 0 && ports[|ports| - 1] == names[i]
    ensures !(forall n :: n in names && IsUsbTty(n) ==> probe(DevPath(n)).Replied?)
  {
    var name := names[i];
    assert IsTty(name) by {
      assert name[..3] == name[..6][..3] == "ttyUSB"[..3];
    }
    TtyNamesPrefix(names, i + 1);
    TtyNamesStep(names, i);
    assert name in names;
  }

  lemma TtyNamesStep(names: seq<string>, i: nat)
    requires i < |names|
    ensures TtyNames(names[..i + 1]) == TtyNames(names[..i]) + (if IsTty(names[i]) then [names[i]] else [])
  {
    assert names[..i + 1][..i] == names[..i];
  }

  lemma ProbedAppend(ports: seq<string>, name: string, selid: int)
    requires -1 <= selid < |ports|
    ensures Probed(ports + [name], selid)
      == Probed(ports, selid) + (if selid == -1 && IsUsbTty(name) then [DevPath(name)] else [])
  {
    var grown := ports + [name];
    assert grown[..|ports|] == ports;
    if selid != -1 {
      assert grown[..selid + 1] == ports[..selid + 1];
    }
  }

  // ---------------------------------------------------------------------
  // The app's state, the status poll and the checkbox handlers

  /** How many good polls leave a clicked checkbox alone. */
  const SettlePolls := 4

  datatype App = App(
    port: Option<string>,
    ser: Option<Connection>,
    bpwait: int,
    ftwait: int,
    bypassChecked: bool,
    forceChecked: bool,
    portLabel: string)

  /** The app's state and the lines it wrote. */
  datatype Effect = Effect(app: App, written: seq<string>)

  /** Both debounce counters stay between 0 and the settle count. */
  predicate CountersInRange(a: App) {
    0 <= a.bpwait <= SettlePolls && 0 <= a.ftwait <= SettlePolls
  }

  /** The app polls only with an open serial object. */
  predicate Polling(a: App) {
    a.ser.Some? && a.ser.value.isOpen
  }

  function PortLabel(port: Option<string>): string {
    match port
    case Some(p) => "Port: /dev/" + p
    case None => "Please set serial port"
  }

  /** The fields of a status reply: CR LF pairs removed, split on commas. */
  function Fields(line: string): (f: seq<string>)
    ensures |f| >= 1
  {
    Split(StripCrlf(line), ',')
  }

  /** The status tag check of `Update`: field 0 must be exactly `STST`. */
  predicate Tagged(line: string) {
    Fields(line)[0] == StatusTag
  }

  /** The force-TX half of the debounce. A missing field 5 raises, which
      leaves the checkbox as it was. */
  function SyncForce(a: App, fields: seq<string>): App {
    if a.ftwait > 0 then a.(ftwait := a.ftwait - 1)
    else if |fields| <= 5 then a
    else a.(forceChecked := fields[5] != "0")
  }

  /** The debounce of a tagged status. A missing field 3 raises before the
      force-TX half runs. */
  function Sync(a: App, fields: seq<string>): App {
    if a.bpwait > 0 then SyncForce(a.(bpwait := a.bpwait - 1), fields)
    else if |fields| <= 3 then a
    else SyncForce(a.(bypassChecked := fields[3] != "0"), fields)
  }

  /** `MyApp.Update`: refreshes the port label, then, with an open serial
      object, sends the status query. A reply whose field 0 is not exactly
      `STST` drops the port and the serial object and leaves the counters
      alone. A tagged reply counts a waiting counter down instead of touching
      its checkbox, and otherwise sets the checkbox to "field is not 0". */
  function Update(app: App, dev: Device): (e: Effect)
    ensures e.app.portLabel == PortLabel(app.port)
    ensures !Polling(app) || dev.Absent? ==> e == Effect(app.(portLabel := PortLabel(app.port)), [])
    ensures Polling(app) && dev.Present? ==> e.written == ["ST?\n"]
    ensures Polling(app) && dev.Present? && !Tagged(dev.line) ==>
      && e.app.port.None? && e.app.ser.None?
      && e.app.bpwait == app.bpwait && e.app.ftwait == app.ftwait
      && e.app.bypassChecked == app.bypassChecked && e.app.forceChecked == app.forceChecked
    ensures Polling(app) && dev.Present? && Tagged(dev.line) ==>
      var fields := Fields(dev.line);
      && e.app.port == app.port && e.app.ser == app.ser
      && (app.bpwait > 0 ==> e.app.bpwait == app.bpwait - 1 && e.app.bypassChecked == app.bypassChecked)
      && (app.bpwait <= 0 ==> e.app.bpwait == app.bpwait)
      && (app.bpwait <= 0 && |fields| > 3 ==> (e.app.bypassChecked <==> fields[3] != "0"))
      && (app.bpwait > 0 || |fields| > 3 ==>
            && (app.ftwait > 0 ==> e.app.ftwait == app.ftwait - 1 && e.app.forceChecked == app.forceChecked)
            && (app.ftwait <= 0 ==> e.app.ftwait == app.ftwait)
            && (app.ftwait <= 0 && |fields| > 5 ==> (e.app.forceChecked <==> fields[5] != "0")))
    ensures Polling(app) && dev.Present? && Tagged(dev.line) && app.bpwait <= 0 && |Fields(dev.line)| <= 3 ==>
      e.app == app.(portLabel := PortLabel(app.port))
    ensures (&& Polling(app) && dev.Present? && Tagged(dev.line)
             && (app.bpwait > 0 || |Fields(dev.line)| > 3)
             && app.ftwait <= 0 && |Fields(dev.line)| <= 5) ==>
      e.app.forceChecked == app.forceChecked
    ensures app.bpwait - 1 <= e.app.bpwait <= app.bpwait && app.ftwait - 1 <= e.app.ftwait <= app.ftwait
    ensures app.bpwait >= 0 ==> e.app.bpwait >= 0
    ensures app.ftwait >= 0 ==> e.app.ftwait >= 0
    ensures CountersInRange(app) ==> CountersInRange(e.app)
  {
    var a := app.(portLabel := PortLabel(app.port));
    if !Polling(a) || dev.Absent? then Effect(a, [])
    else
      var fields := Fields(dev.line);
      if fields[0] != StatusTag then Effect(a.(port := None, ser := None), ["ST?\n"])
      else Effect(Sync(a, fields), ["ST?\n"])
  }

  /** `OnChBoxBypass`, given the checkbox value after the click. Without a
      serial object nothing is written, the checkbox is forced off and the
      counter is left alone; otherwise `STB1`/`STB0` is written and the
      counter restarts. A write that raises leaves the counter as it was. */
  function OnChBoxBypass(app: App, checked: bool, dev: Device): (e: Effect)
    ensures app.ser.None? ==> e == Effect(app.(bypassChecked := false), [])
    ensures Polling(app) && dev.Present? ==>
      && e.written == [if checked then "STB1\n" else "STB0\n"]
      && e.app == app.(bypassChecked := checked, bpwait := SettlePolls)
    ensures app.ser.Some? && !(Polling(app) && dev.Present?) ==>
      e == Effect(app.(bypassChecked := checked), [])
    ensures e.app.ftwait == app.ftwait && e.app.forceChecked == app.forceChecked
    ensures e.app.port == app.port && e.app.ser == app.ser
    ensures CountersInRange(app) ==> CountersInRange(e.app)
  {
    match app.ser
    case None => Effect(app.(bypassChecked := false), [])
    case Some(c) =>
      if !c.isOpen || dev.Absent? then Effect(app.(bypassChecked := checked), [])
      else
        var line := if checked then "STB1\n" else "STB0\n";
        Effect(app.(bypassChecked := checked, bpwait := SettlePolls), [line])
  }

  /** `OnChBoxForce`: as `OnChBoxBypass`, with `STT`/`STR` and the force-TX
      counter. */
  function OnChBoxForce(app: App, checked: bool, dev: Device): (e: Effect)
    ensures app.ser.None? ==> e == Effect(app.(forceChecked := false), [])
    ensures Polling(app) && dev.Present? ==>
      && e.written == [if checked then "STT\n" else "STR\n"]
      && e.app == app.(forceChecked := checked, ftwait := SettlePolls)
    ensures app.ser.Some? && !(Polling(app) && dev.Present?) ==>
      e == Effect(app.(forceChecked := checked), [])
    ensures e.app.bpwait == app.bpwait && e.app.bypassChecked == app.bypassChecked
    ensures e.app.port == app.port && e.app.ser == app.ser
    ensures CountersInRange(app) ==> CountersInRange(e.app)
  {
    match app.ser
    case None => Effect(app.(forceChecked := false), [])
    case Some(c) =>
      if !c.isOpen || dev.Absent? then Effect(app.(forceChecked := checked), [])
      else
        var line := if checked then "STT\n" else "STR\n";
        Effect(app.(forceChecked := checked, ftwait := SettlePolls), [line])
  }

  // ---------------------------------------------------------------------
  // The debounce over a run of polls

  /** A reply the poll accepts and that carries all six fields. */
  predicate GoodPoll(dev: Device) {
    dev.Present? && Tagged(dev.line) && |Fields(dev.line)| >= 6
  }

  function BypassField(dev: Device): bool
    requires GoodPoll(dev)
  {
    Fields(dev.line)[3] != "0"
  }

  function ForceField(dev: Device): bool
    requires GoodPoll(dev)
  {
    Fields(dev.line)[5] != "0"
  }

  function Max0(n: int): nat {
    if n > 0 then n else 0
  }

  /** The app after a run of polls. */
  function Polls(app: App, devs: seq<Device>): App
    decreases |devs|
  {
    if |devs| == 0 then app else Polls(Update(app, devs[0]).app, devs[1..])
  }

  /** Over `k` good polls each counter counts down to zero one poll at a
      time, its checkbox is left alone while the counter lasts, and once the
      counter is spent the checkbox follows the latest poll. */
  lemma {:induction false} DebounceSchedule(app: App, devs: seq<Device>)
    requires Polling(app) && CountersInRange(app)
    requires forall i :: 0 <= i < |devs| ==> GoodPoll(devs[i])
    ensures var a := Polls(app, devs);
      && Polling(a) && a.ser == app.ser && a.port == app.port
      && a.bpwait == Max0(app.bpwait - |devs|)
      && a.ftwait == Max0(app.ftwait - |devs|)
      && (|devs| <= app.bpwait ==> a.bypassChecked == app.bypassChecked)
      && (|devs| > app.bpwait ==> a.bypassChecked == BypassField(devs[|devs| - 1]))
      && (|devs| <= app.ftwait ==> a.forceChecked == app.forceChecked)
      && (|devs| > app.ftwait ==> a.forceChecked == ForceField(devs[|devs| - 1]))
    decreases |devs|
  {
    if |devs| > 0 {
      var next := Update(app, devs[0]).app;
      assert GoodPoll(devs[0]);
      var rest := devs[1..];
      assert forall i :: 0 <= i < |rest| ==> GoodPoll(rest[i]) by {
        assert forall i :: 0 <= i < |rest| ==> rest[i] == devs[i + 1];
      }
      DebounceSchedule(next, rest);
      if |rest| > 0 {
        assert rest[|rest| - 1] == devs[|devs| - 1];
      }
    }
  }

  /** After a successful bypass click, the next four good polls leave the
      checkbox as clicked and the fifth brings it back in line with the
      device. */
  lemma FifthPollResyncsBypass(app: App, checked: bool, dev: Device, devs: seq<Device>)
    requires Polling(app) && CountersInRange(app) && dev.Present?
    requires |devs| == 5 && forall i :: 0 <= i < 5 ==> GoodPoll(devs[i])
    ensures var clicked := OnChBoxBypass(app, checked, dev).app;
      && (forall k :: 0 <= k < 5 ==> Polls(clicked, devs[..k]).bypassChecked == checked)
      && Polls(clicked, devs).bypassChecked == BypassField(devs[4])
      && Polls(clicked, devs).bpwait == 0
  {
    var clicked := OnChBoxBypass(app, checked, dev).app;
    forall k | 0 <= k < 5
      ensures Polls(clicked, devs[..k]).bypassChecked == checked
    {
      assert forall i :: 0 <= i < k ==> devs[..k][i] == devs[i];
      DebounceSchedule(clicked, devs[..k]);
    }
    DebounceSchedule(clicked, devs);
  }

  /** The same for a force-TX click. */
  lemma FifthPollResyncsForce(app: App, checked: bool, dev: Device, devs: seq<Device>)
    requires Polling(app) && CountersInRange(app) && dev.Present?
    requires |devs| == 5 && forall i :: 0 <= i < 5 ==> GoodPoll(devs[i])
    ensures var clicked := OnChBoxForce(app, checked, dev).app;
      && (forall k :: 0 <= k < 5 ==> Polls(clicked, devs[..k]).forceChecked == checked)
      && Polls(clicked, devs).forceChecked == ForceField(devs[4])
      && Polls(clicked, devs).ftwait == 0
  {
    var clicked := OnChBoxForce(app, checked, dev).app;
    forall k | 0 <= k < 5
      ensures Polls(clicked, devs[..k]).forceChecked == checked
    {
      assert forall i :: 0 <= i < k ==> devs[..k][i] == devs[i];
      DebounceSchedule(clicked, devs[..k]);
    }
    DebounceSchedule(clicked, devs);
  }

  /** The lines the old front end writes are the protocol's own encodings,
      except that its probe leaves out the terminator. */
  lemma LegacyLinesAreCommands()
    ensures "STB1\n" == Encode(BypassOn, "") && "STB0\n" == Encode(BypassOff, "")
    ensures "STT\n" == Encode(ModeTxOn, "") && "STR\n" == Encode(ModeTxOff, "")
    ensures "ST?\n" == Encode(GetStatus, "") && ProbeQuery == Logged(Encode(GetStatus, ""))
  {
  }
}

=== FILE: main_window.dfy ===
/** The wx `MainWindow` of wxUI/main_window.py, reduced to the state its
    handlers keep around the protocol: the commander, whether the status
    timer runs, and what the frequency label, the two toggle buttons and the
    status bar show. Message boxes and logging are not modelled.

    A handler that meets an exception it does not catch (calling a method on
    a commander that is still `None`, or indexing a status with too few
    fields) stops where it is; whatever it changed before stays changed. */
module MainWindow {
  import opened Text
  import opened Codec
  import opened SerialManager
  import opened Commander
  import opened PortDiscovery

  datatype Window = Window(
    commander: Option<Manager>,
    timerRunning: bool,
    frequencyLabel: string,
    bypassToggle: bool,
    txToggle: bool,
    statusText: string)

  /** The window as built: no commander, timer stopped, the frequency panel's
      initial label. */
  const InitialWindow := Window(None, false, "433.500 MHz", false, false, "")

  /** A handler's outcome: the window afterwards and what reached the port. */
  datatype Reaction = Reaction(win: Window, events: seq<Event>)

  /** The labels and toggles shown, apart from the protocol state. */
  predicate SameDisplay(a: Window, b: Window) {
    a.frequencyLabel == b.frequencyLabel && a.bypassToggle == b.bypassToggle
    && a.txToggle == b.txToggle && a.statusText == b.statusText
  }

  /** What the window keeps true: the timer only runs with a commander, and
      a commander's connection is bound to its own port. */
  predicate Consistent(w: Window) {
    (w.timerRunning ==> w.commander.Some?)
    && (w.commander.Some? ==> Bound(w.commander.value))
  }

  /** A window that had a commander still has one for the same port and baud
      rate: only the port selection assigns `serialCommander`. */
  predicate KeepsCommander(before: Window, after: Window) {
    before.commander.Some? ==>
      && after.commander.Some?
      && after.commander.value.port == before.commander.value.port
      && after.commander.value.baudrate == before.commander.value.baudrate
  }

  /** Runs one commander method; a `SerialException` is caught and shown. */
  function RunCall(win: Window, call: Call, dev: Device): (r: Reaction)
    ensures win.commander.None? ==> r == Reaction(win, [])
    ensures Writes(r.events) == (if win.commander.Some? && dev.Present? then [WireOf(call)] else [])
    ensures Reads(r.events) == 0
    ensures r.win == win.(commander := r.win.commander)
    ensures r.win.commander.Some? <==> win.commander.Some?
    ensures KeepsCommander(win, r.win)
    ensures Consistent(win) ==> Consistent(r.win)
  {
    match win.commander
    case None => Reaction(win, [])
    case Some(m) =>
      var s := Invoke(m, call, dev);
      Reaction(win.(commander := Some(s.manager)), s.events)
  }

  /** `OnFilterOffsetMessageReceived`: a lowering offset sends a `+` step
      and a raising one a `-` step. The `match` has no default case, so any
      other delta sends nothing. */
  function OnFilterOffset(win: Window, delta: int, dev: Device): (r: Reaction)
    ensures delta !in {-10, -1, 1, 10} ==> r == Reaction(win, [])
    ensures win.commander.None? ==> r == Reaction(win, [])
    ensures dev.Absent? ==> Writes(r.events) == []
    ensures win.commander.Some? && dev.Present? ==>
      && (delta == -10 ==> Writes(r.events) == ["ST+10\n"])
      && (delta == -1 ==> Writes(r.events) == ["ST+1\n"])
      && (delta == 1 ==> Writes(r.events) == ["ST-1\n"])
      && (delta == 10 ==> Writes(r.events) == ["ST-10\n"])
    ensures Reads(r.events) == 0
    ensures SameDisplay(r.win, win) && r.win.timerRunning == win.timerRunning
    ensures KeepsCommander(win, r.win)
    ensures Consistent(win) ==> Consistent(r.win)
  {
    if delta == -10 then
      var r := RunCall(win, FilterStepDown10, dev);
      assert Writes(r.events) == (if win.commander.Some? && dev.Present? then ["ST+10\n"] else []);
      r
    else if delta == -1 then
      var r := RunCall(win, FilterStepDown1, dev);
      assert Writes(r.events) == (if win.commander.Some? && dev.Present? then ["ST+1\n"] else []);
      r
    else if delta == 1 then
      var r := RunCall(win, FilterStepUp1, dev);
      assert Writes(r.events) == (if win.commander.Some? && dev.Present? then ["ST-1\n"] else []);
      r
    else if delta == 10 then
      var r := RunCall(win, FilterStepUp10, dev);
      assert Writes(r.events) == (if win.commander.Some? && dev.Present? then ["ST-10\n"] else []);
      r
    else Reaction(win, [])
  }

  /** `OnBypassMessageReceived`: `True` turns the bypass on, anything else
      turns it off. */
  function OnBypass(win: Window, message: bool, dev: Device): (r: Reaction)
    ensures win.commander.None? ==> r == Reaction(win, [])
    ensures Writes(r.events) ==
      (if win.commander.Some? && dev.Present? then [if message then "STB1\n" else "STB0\n"] else [])
    ensures Reads(r.events) == 0
    ensures SameDisplay(r.win, win) && r.win.timerRunning == win.timerRunning
    ensures KeepsCommander(win, r.win)
    ensures Consistent(win) ==> Consistent(r.win)
  {
    RunCall(win, if message then SetBypassOn else SetBypassOff, dev)
  }

  /** `OnForceTXMessageReceived`: `True` forces TX mode, anything else
      releases it. */
  function OnForceTx(win: Window, message: bool, dev: Device): (r: Reaction)
    ensures win.commander.None? ==> r == Reaction(win, [])
    ensures Writes(r.events) ==
      (if win.commander.Some? && dev.Present? then [if message then "STT\n" else "STR\n"] else [])
    ensures Reads(r.events) == 0
    ensures SameDisplay(r.win, win) && r.win.timerRunning == win.timerRunning
    ensures KeepsCommander(win, r.win)
    ensures Consistent(win) ==> Consistent(r.win)
  {
    RunCall(win, if message then SetModeTxOn else SetModeTxOff, dev)
  }

  /** `OnResetFilterMessageReceived`: the message is ignored. */
  function OnResetFilter(win: Window, dev: Device): (r: Reaction)
    ensures Writes(r.events) == (if win.commander.Some? && dev.Present? then ["STr\n"] else [])
    ensures Reads(r.events) == 0
    ensures SameDisplay(r.win, win) && r.win.timerRunning == win.timerRunning
    ensures KeepsCommander(win, r.win)
    ensures Consistent(win) ==> Consistent(r.win)
  {
    RunCall(win, ResetFilter, dev)
  }

  /** The comma-separated fields of a status line. */
  function StatusFields(line: string): seq<string> {
    Split(line, ',')
  }

  /** The fields shown on a successful tick. Indexing stops at the first
      missing field, leaving the later widgets as they were. */
  function ShowStatus(win: Window, fields: seq<string>): (w: Window)
    ensures w.commander == win.commander && w.timerRunning == win.timerRunning
    ensures w.statusText == win.statusText
    ensures |fields| >= 6 ==>
      && w.frequencyLabel == fields[1] + " MHz"
      && (w.bypassToggle <==> fields[3] != "0")
      && (w.txToggle <==> fields[5] != "0")
    ensures |fields| < 2 ==> w == win
    ensures 2 <= |fields| ==> w.frequencyLabel == fields[1] + " MHz"
    ensures 2 <= |fields| < 4 ==> w.bypassToggle == win.bypassToggle && w.txToggle == win.txToggle
    ensures 4 <= |fields| ==> (w.bypassToggle <==> fields[3] != "0")
    ensures 4 <= |fields| < 6 ==> w.txToggle == win.txToggle
  {
    if |fields| < 2 then win
    else
      var w1 := win.(frequencyLabel := fields[1] + " MHz");
      if |fields| < 4 then w1
      else
        var w2 := w1.(bypassToggle := fields[3] != "0");
        if |fields| < 6 then w2
        else w2.(txToggle := fields[5] != "0")
  }

  /** `OnTimerTick`: polls the status. A `SerialException` stops the timer; a
      `BadSerialResponseException` leaves it running and the display as it
      was; a valid status updates the label and both toggles. */
  function OnTimerTick(win: Window, dev: Device): (r: Reaction)
    ensures win.commander.None? ==> r == Reaction(win, [])
    ensures Writes(r.events) == (if win.commander.Some? && dev.Present? then ["ST?\n"] else [])
    ensures win.commander.Some? && dev.Absent? ==> !r.win.timerRunning && SameDisplay(r.win, win)
    ensures win.commander.Some? && dev.Present? && !ValidStatus(StripCrlf(dev.line)) ==>
      r.win.timerRunning == win.timerRunning && SameDisplay(r.win, win)
    ensures win.commander.Some? && dev.Present? && ValidStatus(StripCrlf(dev.line)) ==>
      var fields := StatusFields(StripCrlf(dev.line));
      && r.win.timerRunning == win.timerRunning
      && (|fields| >= 6 ==>
        && r.win.frequencyLabel == fields[1] + " MHz"
        && (r.win.bypassToggle <==> fields[3] != "0")
        && (r.win.txToggle <==> fields[5] != "0"))
    ensures r.win.timerRunning ==> win.timerRunning
    ensures r.win.statusText == win.statusText
    ensures KeepsCommander(win, r.win)
    ensures Consistent(win) ==> Consistent(r.win)
  {
    match win.commander
    case None => Reaction(win, [])
    case Some(m) =>
      var s := GetStatusOf(m, dev);
      var w := win.(commander := Some(s.manager));
      match s.result
      case Err(SerialException) => Reaction(w.(timerRunning := false), s.events)
      case Err(BadSerialResponse) => Reaction(w, s.events)
      case Ok(line) => Reaction(ShowStatus(w, StatusFields(line)), s.events)
  }

  /** What the port selection dialog returns. The model does not tie the
      chosen name to the listed ports. */
  datatype DialogAnswer = Cancelled | Chose(port: string)

  /** `OnPortSettings`: discovers the ports; with none it does nothing. A
      chosen port gets a new commander, kept even when the first status poll
      fails; the timer is started only after that poll succeeds, and is left
      alone when it already runs. A probe that raises escapes the handler. */
  function OnPortSettings(
    win: Window, enumerated: seq<string>, probe: string -> Probe,
    answer: DialogAnswer, dev: Device): (r: Reaction)
    ensures |enumerated| == 0 || !AllProbed(enumerated, probe) || answer.Cancelled? ==>
      r == Reaction(win, [])
    ensures r.win.frequencyLabel == win.frequencyLabel
    ensures r.win.bypassToggle == win.bypassToggle && r.win.txToggle == win.txToggle
    ensures |enumerated| > 0 && AllProbed(enumerated, probe) && answer.Chose? ==>
      && r.win.commander.Some?
      && r.win.commander.value.port == answer.port
      && r.win.commander.value.baudrate == DefaultBaudrate
      && Writes(r.events) == (if dev.Present? then ["ST?\n"] else [])
      && (r.win.timerRunning <==> win.timerRunning || (dev.Present? && ValidStatus(StripCrlf(dev.line))))
      && (dev.Present? && ValidStatus(StripCrlf(dev.line)) ==>
            r.win.statusText == "Using serial port: " + answer.port)
      && (!(dev.Present? && ValidStatus(StripCrlf(dev.line))) ==> r.win.statusText == win.statusText)
    ensures Consistent(win) ==> Consistent(r.win)
  {
    GetComPortsSpec(enumerated, probe);
    match GetComPorts(enumerated, probe)
    case Err(_) => Reaction(win, [])
    case Ok(ports) =>
      if |ports| == 0 then Reaction(win, [])
      else
        match answer
        case Cancelled => Reaction(win, [])
        case Chose(port) =>
          var s := GetStatusOf(NewCommander(port, DefaultBaudrate), dev);
          var w := win.(commander := Some(s.manager));
          if s.result.Ok? then
            Reaction(w.(statusText := "Using serial port: " + port, timerRunning := true), s.events)
          else Reaction(w, s.events)
  }

  /** The events the window reacts to. */
  datatype UiEvent =
    | PortSettings(enumerated: seq<string>, probe: string -> Probe, answer: DialogAnswer, dev: Device)
    | TimerTick(dev: Device)
    | FilterOffset(delta: int, dev: Device)
    | Bypass(message: bool, dev: Device)
    | ForceTx(message: bool, dev: Device)
    | ResetFilterClicked(dev: Device)

  function Handle(win: Window, ev: UiEvent): Reaction {
    match ev
    case PortSettings(e, probe, answer, dev) => OnPortSettings(win, e, probe, answer, dev)
    case TimerTick(dev) => OnTimerTick(win, dev)
    case FilterOffset(delta, dev) => OnFilterOffset(win, delta, dev)
    case Bypass(message, dev) => OnBypass(win, message, dev)
    case ForceTx(message, dev) => OnForceTx(win, message, dev)
    case ResetFilterClicked(dev) => OnResetFilter(win, dev)
  }

  function Replay(win: Window, evs: seq<UiEvent>): Window
    decreases |evs|
  {
    if |evs| == 0 then win else Replay(Handle(win, evs[0]).win, evs[1..])
  }

  /** From the window as built, whatever happens, the timer never runs
      without a commander and the commander's connection stays bound to the
      commander's own port. */
  lemma {:induction false} AlwaysConsistent(win: Window, evs: seq<UiEvent>)
    requires Consistent(win)
    ensures Consistent(Replay(win, evs))
    decreases |evs|
  {
    if |evs| > 0 {
      var next := Handle(win, evs[0]).win;
      assert Consistent(next) by {
        match evs[0]
        case PortSettings(e, probe, answer, dev) =>
        case TimerTick(dev) =>
        case FilterOffset(delta, dev) =>
        case Bypass(message, dev) =>
        case ForceTx(message, dev) =>
        case ResetFilterClicked(dev) =>
      }
      AlwaysConsistent(next, evs[1..]);
    }
  }

  /** A status reply built from six comma-free, CR-free fields, the first
      being the tag, and terminated by CR LF, shows field 1 with ` MHz`,
      turns each toggle on iff its field is not `"0"`, and keeps the timer
      as it was. So `STST,433.500,0,1,0,1` shows 433.500 MHz with both
      toggles on, and `STST,433.500,0,0,0,0` shows both off. */
  lemma TickShowsFields(win: Window, fields: seq<string>)
    requires win.commander.Some?
    requires |fields| == 6 && fields[0] == StatusTag
    requires forall i :: 0 <= i < 6 ==> ',' !in fields[i] && '\r' !in fields[i]
    ensures var r := OnTimerTick(win, Present(Join(fields, ',') + "\r\n"));
      && Writes(r.events) == ["ST?\n"]
      && r.win.timerRunning == win.timerRunning
      && r.win.frequencyLabel == fields[1] + " MHz"
      && (r.win.bypassToggle <==> fields[3] != "0")
      && (r.win.txToggle <==> fields[5] != "0")
  {
    var line := Join(fields, ',');
    JoinAvoids(fields, ',', '\r');
    NoCrNoCrlf(line);
    StripCrlfTerminated(line);
    SplitJoin(fields, ',');
    assert line == fields[0] + [','] + Join(fields[1..], ',');
    assert line[..4] == StatusTag;
  }

  lemma InitialConsistent()
    ensures Consistent(InitialWindow)
  {
  }

  /** Between two port selections the commander is never replaced: after any
      run of the other handlers the window talks to the port and baud rate it
      was given. */
  lemma {:induction false} CommanderKept(win: Window, evs: seq<UiEvent>)
    requires forall i :: 0 <= i < |evs| ==> !evs[i].PortSettings?
    ensures KeepsCommander(win, Replay(win, evs))
    decreases |evs|
  {
    if |evs| > 0 {
      var next := Handle(win, evs[0]).win;
      assert KeepsCommander(win, next) by {
        match evs[0]
        case TimerTick(dev) =>
        case FilterOffset(delta, dev) =>
        case Bypass(message, dev) =>
        case ForceTx(message, dev) =>
        case ResetFilterClicked(dev) =>
      }
      CommanderKept(next, evs[1..]);
    }
  }
}

=== FILE: port_discovery.dfy ===
/** `SerialManager.get_com_ports` of serial_comm/serial_comm.py: probe every
    enumerated serial port with the status query and bring the port that
    answers with the status tag to the front of the list.

    The enumeration is a parameter, and each port's probe is an oracle
    `probe: port -> Probe`. Two versions are modelled: the loop as written,
    which overwrites the first entry, and the swap it evidently meant to
    perform. */
module PortDiscovery {
  import opened Text
  import opened Codec
  import opened SerialManager

  /** One probe: opening, writing or reading raised, or the bytes the port
      sent back within the timeout. */
  datatype Probe = ProbeFailed | Replied(data: seq<byte>)

  /** `b'STST'`: the status tag as bytes. */
  const StatusTagBytes: seq<byte> := [0x53, 0x54, 0x53, 0x54]

  /** The tag bytes are the ASCII codes of the status tag. */
  lemma StatusTagBytesAscii()
    ensures |StatusTagBytes| == |StatusTag|
    ensures forall i :: 0 <= i < |StatusTag| ==> StatusTagBytes[i] as int == StatusTag[i] as int
  {
  }

  /** `ser.read(4)`: at most the first four bytes of the reply. */
  function Read4(data: seq<byte>): (r: seq<byte>)
    ensures |r| <= 4 && StartsWith(data, r)
    ensures |data| >= 4 ==> |r| == 4
    ensures |data| < 4 ==> r == data
  {
    if |data| <= 4 then data else data[..4]
  }

  /** A port is confirmed when the four bytes read equal the status tag. */
  predicate Responds(reply: Probe) {
    reply.Replied? && Read4(reply.data) == StatusTagBytes
  }

  /** The probe confirms a port exactly when its reply starts with the tag. */
  lemma RespondsIffTagged(reply: Probe)
    ensures Responds(reply) <==> reply.Replied? && StartsWith(reply.data, StatusTagBytes)
  {
  }

  /** Every probe of `ports` completes without raising. */
  predicate AllProbed(ports: seq<string>, probe: string -> Probe) {
    forall i :: 0 <= i < |ports| ==> probe(ports[i]).Replied?
  }

  /** Reference: the last port of `ports` whose probe confirms it. */
  function LastResponder(ports: seq<string>, probe: string -> Probe): (r: Option<string>)
    ensures r.Some? ==> r.value in ports && Responds(probe(r.value))
    ensures r.None? ==> forall i :: 0 <= i < |ports| ==> !Responds(probe(ports[i]))
    decreases |ports|
  {
    if |ports| == 0 then None
    else if Responds(probe(ports[|ports| - 1])) then Some(ports[|ports| - 1])
    else LastResponder(ports[..|ports| - 1], probe)
  }

  /** The port put in front after probing `ports`, `default` if none answered. */
  function FrontOf(ports: seq<string>, probe: string -> Probe, default: string): string {
    match LastResponder(ports, probe)
    case None => default
    case Some(p) => p
  }

  /** Python's `xs.index(x)`: the first position of `x`. */
  function IndexOf(xs: seq<string>, x: string): (i: nat)
    requires x in xs
    ensures i < |xs| && xs[i] == x
    ensures forall j :: 0 <= j < i ==> xs[j] != x
    decreases |xs|
  {
    if xs[0] == x then 0 else 1 + IndexOf(xs[1..], x)
  }

  lemma LastResponderStep(e: seq<string>, i: nat, probe: string -> Probe)
    requires i < |e|
    ensures LastResponder(e[..i + 1], probe)
      == if Responds(probe(e[i])) then Some(e[i]) else LastResponder(e[..i], probe)
  {
    assert e[..i + 1][..i] == e[..i];
  }

  // ---------------------------------------------------------------------
  // The loop as written: slot 0 is overwritten and nothing is swapped back.

  /** Iteration `i` of the `for p in ports` loop over the list being edited.
      Line 65 saves the first entry and never uses it; line 67 only reads. */
  function ReorderAsWritten(ports: seq<string>, i: nat, probe: string -> Probe): (r: Result<seq<string>>)
    requires i <= |ports|
    ensures r.Err? ==> r.failure == SerialException
    decreases |ports| - i
  {
    if i == |ports| then Ok(ports)
    else
      var p := ports[i];
      match probe(p)
      case ProbeFailed => Err(SerialException)
      case Replied(data) =>
        if Read4(data) == StatusTagBytes then
          ReorderAsWritten(ports[0 := ports[IndexOf(ports, p)]], i + 1, probe)
        else ReorderAsWritten(ports, i + 1, probe)
  }

  function GetComPortsAsWritten(enumerated: seq<string>, probe: string -> Probe): Result<seq<string>> {
    ReorderAsWritten(enumerated, 0, probe)
  }

  /** Reference result of the loop as written: the enumeration with its first
      entry replaced by the last confirmed port. */
  function Overwritten(e: seq<string>, probe: string -> Probe): seq<string> {
    if |e| == 0 then e else e[0 := FrontOf(e, probe, e[0])]
  }

  lemma {:induction false} ReorderAsWrittenFrom(e: seq<string>, cur: seq<string>, i: nat, probe: string -> Probe)
    requires 0 < |e| && i <= |e|
    requires cur == e[0 := FrontOf(e[..i], probe, e[0])]
    ensures ReorderAsWritten(cur, i, probe)
      == if AllProbed(e[i..], probe) then Ok(Overwritten(e, probe)) else Err(SerialException)
    decreases |e| - i
  {
    if i == |e| {
      assert e[..i] == e;
      assert e[i..] == [];
    } else {
      assert cur[i] == e[i];
      LastResponderStep(e, i, probe);
      assert e[i..][0] == e[i] && e[i..][1..] == e[i + 1..];
      match probe(e[i])
      case ProbeFailed =>
        assert !AllProbed(e[i..], probe) by {
          assert !probe(e[i..][0]).Replied?;
        }
      case Replied(data) =>
        assert AllProbed(e[i..], probe) == AllProbed(e[i + 1..], probe) by {
          assert forall j :: 0 < j < |e[i..]| ==> e[i..][j] == e[i + 1..][j - 1];
        }
        if Read4(data) == StatusTagBytes {
          var k := IndexOf(cur, e[i]);
          assert cur[0 := cur[k]] == e[0 := FrontOf(e[..i + 1], probe, e[0])];
          ReorderAsWrittenFrom(e, cur[0 := cur[k]], i + 1, probe);
        } else {
          ReorderAsWrittenFrom(e, cur, i + 1, probe);
        }
    }
  }

  /** The loop as written keeps the length and every entry past the first,
      and puts the last confirmed port in the first slot; a probe that
      raises makes the whole call raise. */
  lemma GetComPortsAsWrittenSpec(e: seq<string>, probe: string -> Probe)
    ensures GetComPortsAsWritten(e, probe).Ok? <==> AllProbed(e, probe)
    ensures GetComPortsAsWritten(e, probe).Ok? ==> GetComPortsAsWritten(e, probe).value == Overwritten(e, probe)
    ensures var r := Overwritten(e, probe);
      |r| == |e| && (|e| > 0 ==> r[1..] == e[1..])
      && (LastResponder(e, probe).None? ==> r == e)
      && (LastResponder(e, probe).Some? ==> r[0] == LastResponder(e, probe).value)
  {
    if |e| > 0 {
      assert e[..0] == [];
      assert e[0..] == e;
      ReorderAsWrittenFrom(e, e, 0, probe);
    }
  }

  /** When the last confirmed port sits at index `k >= 1` and the first entry
      occurs nowhere else, the loop as written drops the first entry and
      lists the confirmed port twice. */
  lemma AsWrittenDropsFirstPort(e: seq<string>, probe: string -> Probe, k: nat)
    requires AllProbed(e, probe)
    requires 1 <= k < |e| && LastResponder(e, probe) == Some(e[k])
    requires forall j :: 1 <= j < |e| ==> e[j] != e[0]
    ensures GetComPortsAsWritten(e, probe).Ok?
    ensures |GetComPortsAsWritten(e, probe).value| == |e|
    ensures e[0] !in GetComPortsAsWritten(e, probe).value
    ensures GetComPortsAsWritten(e, probe).value[0] == GetComPortsAsWritten(e, probe).value[k] == e[k]
  {
    GetComPortsAsWrittenSpec(e, probe);
    var r := GetComPortsAsWritten(e, probe).value;
    assert r[0] == e[k];
    forall j | 0 <= j < |r|
      ensures r[j] != e[0]
    {
      if j > 0 {
        assert r[j] == r[1..][j - 1] == e[1..][j - 1] == e[j];
      }
    }
  }

  /** A probe where only `/dev/ttyUSB0` answers with the tag. */
  function OnlyUsb0Answers(port: string): Probe {
    if port == "/dev/ttyUSB0" then Replied(StatusTagBytes) else Replied([])
  }

  /** Concretely: with `/dev/ttyS0` enumerated before the device, the loop as
      written returns the device twice and loses `/dev/ttyS0`. */
  lemma AsWrittenCounterexample()
    ensures GetComPortsAsWritten(["/dev/ttyS0", "/dev/ttyUSB0"], OnlyUsb0Answers)
      == Ok(["/dev/ttyUSB0", "/dev/ttyUSB0"])
  {
    var e := ["/dev/ttyS0", "/dev/ttyUSB0"];
    assert e[1] == "/dev/ttyUSB0" && e[0] != "/dev/ttyUSB0";
    assert Responds(OnlyUsb0Answers(e[1]));
    assert LastResponder(e, OnlyUsb0Answers) == Some(e[1]);
    assert AllProbed(e, OnlyUsb0Answers) by {
      assert forall i :: 0 <= i < |e| ==> OnlyUsb0Answers(e[i]).Replied?;
    }
    GetComPortsAsWrittenSpec(e, OnlyUsb0Answers);
    assert Overwritten(e, OnlyUsb0Answers) == e[0 := e[1]];
    assert e[0 := e[1]] == ["/dev/ttyUSB0", "/dev/ttyUSB0"];
    assert GetComPortsAsWritten(e, OnlyUsb0Answers) == Ok(e[0 := e[1]]);
  }

  // ---------------------------------------------------------------------
  // The evidently intended loop: swap the confirmed port with the first.

  /** Iteration `i` of the loop with the swap completed: the confirmed port
      moves to slot 0 and the previous first entry takes its slot. */
  function ReorderSwapping(ports: seq<string>, i: nat, probe: string -> Probe): (r: Result<seq<string>>)
    requires i <= |ports|
    ensures r.Err? ==> r.failure == SerialException
    decreases |ports| - i
  {
    if i == |ports| then Ok(ports)
    else
      match probe(ports[i])
      case ProbeFailed => Err(SerialException)
      case Replied(data) =>
        if Read4(data) == StatusTagBytes then
          ReorderSwapping(ports[0 := ports[i]][i := ports[0]], i + 1, probe)
        else ReorderSwapping(ports, i + 1, probe)
  }

  /** The port list the rest of the model uses. */
  function GetComPorts(enumerated: seq<string>, probe: string -> Probe): Result<seq<string>> {
    ReorderSwapping(enumerated, 0, probe)
  }

  /** What the swapping loop keeps at step `i`: the ports are a permutation
      of the enumeration, slot 0 holds the last port confirmed so far, every
      unvisited slot and every visited slot of a silent port is untouched. */
  predicate SwapInvariant(e: seq<string>, cur: seq<string>, i: nat, probe: string -> Probe)
    requires 0 < |e| && i <= |e|
  {
    && |cur| == |e|
    && multiset(cur) == multiset(e)
    && cur[0] == FrontOf(e[..i], probe, e[0])
    && (forall j :: i <= j < |e| && j != 0 ==> cur[j] == e[j])
    && (forall j :: 1 <= j < i && !Responds(probe(e[j])) ==> cur[j] == e[j])
  }

  lemma SwapPreservesMultiset(s: seq<string>, i: nat)
    requires i < |s|
    ensures multiset(s[0 := s[i]][i := s[0]]) == multiset(s)
  {
    if i > 0 {
      var t := s[0 := s[i]];
      assert multiset(t) == multiset(s) - multiset{s[0]} + multiset{s[i]};
      assert t[i] == s[i];
      assert multiset(t[i := s[0]]) == multiset(t) - multiset{s[i]} + multiset{s[0]};
    } else {
      assert s[0 := s[0]][0 := s[0]] == s;
    }
  }

  lemma {:induction false} ReorderSwappingFrom(e: seq<string>, cur: seq<string>, i: nat, probe: string -> Probe)
    requires 0 < |e| && i <= |e|
    requires SwapInvariant(e, cur, i, probe)
    ensures ReorderSwapping(cur, i, probe).Ok? <==> AllProbed(e[i..], probe)
    ensures ReorderSwapping(cur, i, probe).Ok? ==> SwapInvariant(e, ReorderSwapping(cur, i, probe).value, |e|, probe)
    decreases |e| - i
  {
    if i < |e| {
      assert cur[i] == e[i] by {
        if i == 0 {
          assert e[..0] == [];
        }
      }
      LastResponderStep(e, i, probe);
      assert e[i..][0] == e[i] && e[i..][1..] == e[i + 1..];
      match probe(e[i])
      case ProbeFailed =>
        assert !probe(e[i..][0]).Replied?;
      case Replied(data) =>
        assert AllProbed(e[i..], probe) == AllProbed(e[i + 1..], probe) by {
          assert forall j :: 0 < j < |e[i..]| ==> e[i..][j] == e[i + 1..][j - 1];
        }
        if Read4(data) == StatusTagBytes {
          var next := cur[0 := cur[i]][i := cur[0]];
          SwapPreservesMultiset(cur, i);
          assert next[0] == e[i] by {
            if i == 0 {
              assert e[..0] == [];
            }
          }
          assert SwapInvariant(e, next, i + 1, probe);
          ReorderSwappingFrom(e, next, i + 1, probe);
        } else {
          ReorderSwappingFrom(e, cur, i + 1, probe);
        }
    }
  }

  /** The corrected discovery: it raises exactly when some probe raises;
      otherwise it returns a permutation of the enumeration with the last
      confirmed port first, leaves every silent port past the first in place,
      and returns the enumeration unchanged when no port answers. */
  lemma GetComPortsSpec(e: seq<string>, probe: string -> Probe)
    ensures GetComPorts(e, probe).Ok? <==> AllProbed(e, probe)
    ensures GetComPorts(e, probe).Ok? ==>
      var r := GetComPorts(e, probe).value;
      && |r| == |e|
      && multiset(r) == multiset(e)
      && (LastResponder(e, probe).Some? ==> r[0] == LastResponder(e, probe).value)
      && (forall j :: 1 <= j < |e| && !Responds(probe(e[j])) ==> r[j] == e[j])
      && (LastResponder(e, probe).None? ==> r == e)
  {
    if |e| == 0 {
    } else {
      assert e[..0] == [] && e[0..] == e && e[..|e|] == e;
      ReorderSwappingFrom(e, e, 0, probe);
      if GetComPorts(e, probe).Ok? {
        var r := GetComPorts(e, probe).value;
        if LastResponder(e, probe).None? {
          forall j | 0 <= j < |e|
            ensures r[j] == e[j]
          {
          }
        }
      }
    }
  }
}

=== FILE: serial_manager.dfy ===
/** `SerialManager` of serial_comm/serial_comm.py: one lazily opened serial
    connection per manager, a line writer and a line reader.

    The serial port is an oracle: each call is handed the `Device` as it is
    at that moment. An absent device makes every port operation raise
    pyserial's `SerialException`; a present one accepts every write and
    answers a `readline` with its `line` (an empty line models a read that
    timed out). What the manager does to the port is recorded as a trace of
    `Event`s. */
module SerialManager {
  import opened Text
  import opened Codec

  const DefaultBaudrate := 9600
  /** The read timeout, in seconds, of the connection the manager builds. */
  const ReadTimeout := 3

  datatype Device = Absent | Present(line: string)

  /** A pyserial `Serial` object: where it is bound and whether it is open. */
  datatype Connection = Connection(port: string, baudrate: int, timeout: int, isOpen: bool)

  datatype Manager = Manager(port: string, baudrate: int, connection: Option<Connection>)

  /** What the manager does to the port. A connection is `Constructed` only
      when pyserial managed to open it. */
  datatype Event =
    | Constructed(port: string, baudrate: int, timeout: int)
    | Reopened
    | Wrote(line: string)
    | Flushed
    | ReadLine

  /** The two exception types the controller distinguishes. */
  datatype Failure = SerialException | BadSerialResponse

  datatype Result<+T> = Ok(value: T) | Err(failure: Failure)

  /** The manager after a call, what the call did, and what it returned. */
  datatype Step<+T> = Step(manager: Manager, events: seq<Event>, result: Result<T>)

  /** `SerialManager(port, baudrate)`: nothing is opened yet. */
  function NewManager(port: string, baudrate: int): Manager {
    Manager(port, baudrate, None)
  }

  predicate IsOpen(m: Manager) {
    m.connection.Some? && m.connection.value.isOpen
  }

  /** A manager's connection, if any, is bound to the manager's own port and
      baud rate with the fixed read timeout. */
  predicate Bound(m: Manager) {
    m.connection.Some? ==>
      m.connection.value.port == m.port
      && m.connection.value.baudrate == m.baudrate
      && m.connection.value.timeout == ReadTimeout
  }

  /** The lines written, in order. */
  function Writes(events: seq<Event>): (lines: seq<string>)
    ensures |lines| <= |events|
    decreases |events|
  {
    if |events| == 0 then []
    else (if events[0].Wrote? then [events[0].line] else []) + Writes(events[1..])
  }

  /** The number of `readline` calls. */
  function Reads(events: seq<Event>): (n: nat)
    ensures n <= |events|
    decreases |events|
  {
    if |events| == 0 then 0
    else (if events[0].ReadLine? then 1 else 0) + Reads(events[1..])
  }

  /** The number of connections built. */
  function Constructions(events: seq<Event>): (n: nat)
    ensures n <= |events|
    decreases |events|
  {
    if |events| == 0 then 0
    else (if events[0].Constructed? then 1 else 0) + Constructions(events[1..])
  }

  /** The three trace measures distribute over concatenation. */
  lemma {:induction false} TraceAppend(a: seq<Event>, b: seq<Event>)
    ensures Writes(a + b) == Writes(a) + Writes(b)
    ensures Reads(a + b) == Reads(a) + Reads(b)
    ensures Constructions(a + b) == Constructions(a) + Constructions(b)
    decreases |a|
  {
    if |a| == 0 {
      assert a + b == b;
    } else {
      assert (a + b)[1..] == a[1..] + b;
      TraceAppend(a[1..], b);
    }
  }

  /** `_open_serial`: builds the connection only when there is none, and
      reopens an existing one only when it is closed. */
  function OpenSerial(m: Manager, dev: Device): (s: Step<()>)
    ensures s.result.Ok? <==> IsOpen(m) || dev.Present?
    ensures s.result.Ok? ==> IsOpen(s.manager)
    ensures s.result.Err? ==> s.manager == m && s.events == []
    ensures IsOpen(m) ==> s == Step(m, [], Ok(()))
    ensures Constructions(s.events) == (if m.connection.None? && dev.Present? then 1 else 0)
    ensures m.connection.Some? ==>
      s.manager.connection.Some?
      && s.manager.connection.value.(isOpen := true) == m.connection.value.(isOpen := true)
    ensures Writes(s.events) == [] && Reads(s.events) == 0
    ensures s.manager.port == m.port && s.manager.baudrate == m.baudrate
    ensures Bound(m) ==> Bound(s.manager)
  {
    match m.connection
    case None =>
      if dev.Absent? then Step(m, [], Err(SerialException))
      else
        var c := Connection(m.port, m.baudrate, ReadTimeout, true);
        Step(m.(connection := Some(c)), [Constructed(m.port, m.baudrate, ReadTimeout)], Ok(()))
    case Some(c) =>
      if c.isOpen then Step(m, [], Ok(()))
      else if dev.Absent? then Step(m, [], Err(SerialException))
      else Step(m.(connection := Some(c.(isOpen := true))), [Reopened], Ok(()))
  }

  /** `_send_command`: opens lazily, then writes exactly one encoded line and
      flushes it. Nothing is read. */
  function SendCommand(m: Manager, c: Command, parameter: string, dev: Device): (s: Step<()>)
    ensures s.result.Ok? <==> dev.Present?
    ensures s.result.Err? ==> s.result.failure == SerialException
    ensures Writes(s.events) == (if dev.Present? then [Encode(c, parameter)] else [])
    ensures Reads(s.events) == 0
    ensures s.result.Ok? ==> IsOpen(s.manager)
    ensures m.connection.Some? ==> Constructions(s.events) == 0 && s.manager.connection.Some?
    ensures Constructions(s.events) == (if m.connection.None? && dev.Present? then 1 else 0)
    ensures s.manager.port == m.port && s.manager.baudrate == m.baudrate
    ensures Bound(m) ==> Bound(s.manager)
  {
    var o := OpenSerial(m, dev);
    if o.result.Err? then Step(m, [], Err(SerialException))
    else if dev.Absent? then
      // The connection was already open, but the write raises.
      Step(o.manager, o.events, Err(SerialException))
    else
      var sent := [Wrote(Encode(c, parameter)), Flushed];
      TraceAppend(o.events, sent);
      Step(o.manager, o.events + sent, Ok(()))
  }

  /** `_read_from_serial`: one `readline`, with every CR LF pair removed.
      The source only calls it after a successful send; without any
      connection it would fail on `None`. */
  function ReadFromSerial(m: Manager, dev: Device): (s: Step<string>)
    requires m.connection.Some?
    ensures s.manager == m
    ensures s.result.Ok? <==> IsOpen(m) && dev.Present?
    ensures s.result.Ok? ==> s.result.value == StripCrlf(dev.line)
    ensures s.result.Err? ==> s.result.failure == SerialException && s.events == []
    ensures s.result.Ok? ==> s.events == [ReadLine]
  {
    if !m.connection.value.isOpen || dev.Absent? then Step(m, [], Err(SerialException))
    else Step(m, [ReadLine], Ok(StripCrlf(dev.line)))
  }
}

=== FILE: text.dfy ===
/** Character-level helpers shared by the protocol layer and both front ends.
    They model the three Python string operations the controller relies on:
    `str.startswith`, `str.replace("\r\n", "")` and `str.split(",")`. */
module Text {

  datatype Option<+T> = None | Some(value: T)

  /** Raw bytes as read from a serial port, before any decoding. */
  newtype byte = x: int | 0 <= x < 256

  /** Python's `s.startswith(p)`. */
  predicate StartsWith<T(==)>(s: seq<T>, p: seq<T>) {
    |p| <= |s| && s[..|p|] == p
  }

  /** Two prefixes of one sequence are prefixes of each other. */
  lemma StartsWithBoth<T>(s: seq<T>, a: seq<T>, b: seq<T>)
    requires StartsWith(s, a) && StartsWith(s, b) && |a| <= |b|
    ensures StartsWith(b, a)
  {
    assert b[..|a|] == s[..|b|][..|a|] == s[..|a|];
  }

  /** A carriage-return/line-feed pair starts at index `i` of `s`. */
  predicate CrlfAt(s: string, i: int) {
    0 <= i && i + 1 < |s| && s[i] == '\r' && s[i + 1] == '\n'
  }

  predicate ContainsCrlf(s: string) {
    exists i | 0 <= i < |s| :: CrlfAt(s, i)
  }

  /** Python's `s.replace("\r\n", "")`: occurrences are found left to right
      and removed without overlapping. */
  function StripCrlf(s: string): (r: string)
    ensures |r| <= |s|
    ensures (|s| - |r|) % 2 == 0
    decreases |s|
  {
    if |s| < 2 then s
    else if s[0] == '\r' && s[1] == '\n' then StripCrlf(s[2..])
    else [s[0]] + StripCrlf(s[1..])
  }

  lemma NoCrlfTail(s: string)
    requires |s| > 0 && !ContainsCrlf(s)
    ensures !ContainsCrlf(s[1..])
  {
    forall i | CrlfAt(s[1..], i)
      ensures CrlfAt(s, i + 1)
    {
    }
  }

  /** A line without any CR LF pair is returned unchanged. */
  lemma {:induction false} StripCrlfIdentity(s: string)
    requires !ContainsCrlf(s)
    ensures StripCrlf(s) == s
    decreases |s|
  {
    if |s| >= 2 {
      assert !CrlfAt(s, 0);
      NoCrlfTail(s);
      StripCrlfIdentity(s[1..]);
      assert s == [s[0]] + s[1..];
    }
  }

  /** A line `x + "\r\n"`, where `x` holds no CR LF pair, yields `x`: the
      terminator is the only pair, since `x` may end in '\r' but the pair
      `'\r', '\r'` at the seam is not a CR LF. */
  lemma {:induction false} StripCrlfTerminated(x: string)
    requires !ContainsCrlf(x)
    ensures StripCrlf(x + "\r\n") == x
    decreases |x|
  {
    var s := x + "\r\n";
    if |x| == 0 {
      assert s == "\r\n";
      assert s[2..] == "";
    } else {
      assert !CrlfAt(s, 0) by {
        if |x| >= 2 {
          assert !CrlfAt(x, 0);
        } else {
          assert s[1] == '\r';
        }
      }
      NoCrlfTail(x);
      StripCrlfTerminated(x[1..]);
      assert s[1..] == x[1..] + "\r\n";
      assert x == [x[0]] + x[1..];
    }
  }

  /** Python's `s.split(sep)` for a one-character separator: never empty,
      and no field contains the separator. */
  function Split(s: string, sep: char): (fields: seq<string>)
    ensures |fields| >= 1
    ensures forall i :: 0 <= i < |fields| ==> sep !in fields[i]
    decreases |s|
  {
    if |s| == 0 then [""]
    else if s[0] == sep then [""] + Split(s[1..], sep)
    else
      var rest := Split(s[1..], sep);
      [[s[0]] + rest[0]] + rest[1..]
  }

  /** Python's `sep.join(fields)`, the reference inverse of `Split`. */
  function Join(fields: seq<string>, sep: char): string
    requires |fields| >= 1
    decreases |fields|
  {
    if |fields| == 1 then fields[0]
    else fields[0] + [sep] + Join(fields[1..], sep)
  }

  /** Joining the fields of a split gives back the original line. */
  lemma {:induction false} JoinSplit(s: string, sep: char)
    ensures Join(Split(s, sep), sep) == s
    decreases |s|
  {
    if |s| == 0 {
    } else if s[0] == sep {
      JoinSplit(s[1..], sep);
      assert Split(s, sep)[1..] == Split(s[1..], sep);
      assert s == [sep] + s[1..];
    } else {
      var rest := Split(s[1..], sep);
      JoinSplit(s[1..], sep);
      var fields := Split(s, sep);
      assert fields == [[s[0]] + rest[0]] + rest[1..];
      if |rest| == 1 {
        assert s == [s[0]] + rest[0];
      } else {
        assert fields[1..] == rest[1..];
        assert Join(rest, sep) == rest[0] + [sep] + Join(rest[1..], sep);
        assert s == [s[0]] + s[1..];
      }
    }
  }

  lemma {:induction false} SplitPlain(a: string, sep: char)
    requires sep !in a
    ensures Split(a, sep) == [a]
    decreases |a|
  {
    if |a| > 0 {
      SplitPlain(a[1..], sep);
      assert a == [a[0]] + a[1..];
    }
  }

  lemma {:induction false} SplitAppend(a: string, b: string, sep: char)
    requires sep !in a
    ensures Split(a + [sep] + b, sep) == [a] + Split(b, sep)
    decreases |a|
  {
    var s := a + [sep] + b;
    if |a| == 0 {
      assert s == [sep] + b;
      assert s[1..] == b;
    } else {
      assert s[1..] == a[1..] + [sep] + b;
      SplitAppend(a[1..], b, sep);
      assert a == [a[0]] + a[1..];
    }
  }

  /** Splitting a join of separator-free fields gives back the fields. */
  lemma {:induction false} SplitJoin(fields: seq<string>, sep: char)
    requires |fields| >= 1
    requires forall i :: 0 <= i < |fields| ==> sep !in fields[i]
    ensures Split(Join(fields, sep), sep) == fields
    decreases |fields|
  {
    if |fields| == 1 {
      SplitPlain(fields[0], sep);
    } else {
      assert sep !in fields[0];
      SplitJoin(fields[1..], sep);
      SplitAppend(fields[0], Join(fields[1..], sep), sep);
      assert fields == [fields[0]] + fields[1..];
    }
  }

  /** A character found in no field and distinct from the separator is not
      in their join. */
  lemma {:induction false} JoinAvoids(fields: seq<string>, sep: char, c: char)
    requires |fields| >= 1 && c != sep
    requires forall i :: 0 <= i < |fields| ==> c !in fields[i]
    ensures c !in Join(fields, sep)
    decreases |fields|
  {
    if |fields| > 1 {
      assert c !in fields[0];
      JoinAvoids(fields[1..], sep, c);
    }
  }

  /** A line without a carriage return holds no CR LF pair. */
  lemma NoCrNoCrlf(s: string)
    requires '\r' !in s
    ensures !ContainsCrlf(s)
  {
  }
}
